=== FILE: README.md ===
# Timetable combinations: a Dafny model of `horarios`

`main.py` reads a semester's course catalog, a text file where each class
title line is followed by one line per section ("paralelo"), and lists
every timetable that takes one section of each chosen class without a
clash. The result is shown in a small Dash viewer with four navigation
buttons. This project models and proves properties of three parts of it:

* **The conflict engine.** It covers times of day and the
  `do_hours_overlap` test, exams and `do_exams_overlap`, and
  `generate_valid_combinations`. That function takes the Cartesian product
  of the classes' options in `itertools.product` order. It keeps a
  combination only if no pair `i < j` has overlapping class hours or
  overlapping same-id exams. The weekday bits are never consulted, and
  there is no accepted-time-window filter. A missing exam (`None`) makes
  `do_exams_overlap` raise when that pair is reached. The exception aborts
  the whole enumeration, and the model returns `None` for it. Because the
  pair loop checks hours before exams, whether a combination is rejected or
  aborts depends on the order the pairs are visited. The model keeps that
  order exactly.
* **The catalog line parsers and formatters.** These are `parse_days`,
  `parse_hours`, `parse_in_person`, `parse_exam`, `parse_schedule`,
  `parse_title` and `parse_semester_line`, plus `str_from_day(s)`,
  `str_from_hour(s)` and `str_from_exam`. They are index-returning scanners
  over `seq<char>`, with Python's `str.find`, clamped slicing, negative
  slice ends, `str.strip` and `f"{n:02d}"` written out. Every failed
  `assert`, `int()` `ValueError` and `IndexError` is a `None` result.
* **The pagination cursor.** This is the index update inside
  `update_schedule`.

Modules follow the program's pieces:

| file | module | contents |
|---|---|---|
| wrappers.dfy | `Wrappers` | `Option` |
| text.dfy | `Text` | `find`, slicing, `strip`, `int()`, `str()` and `:02d` |
| days.dfy | `Days` | the `Day` flags, `str_from_day(s)`, `parse_days` |
| hours.dfy | `Hours` | `Hour`, `Hour_Range`, `do_hours_overlap`, `str_from_hour(s)`, `parse_hours` |
| exams.dfy | `Exams` | `Exam`, `do_exams_overlap`, `str_from_exam`, `parse_exam` |
| catalog.dfy | `Catalog` | `Schedule`, `Class`, `parse_in_person`, `parse_schedule`, `parse_title`, `parse_semester_line` |
| cartesian.dfy | `Cartesian` | `itertools.product` and its order |
| combinations.dfy | `Combinations` | the pair check and `generate_valid_combinations` |
| pager.dfy | `Pager` | the index logic of `update_schedule` |

Facts about `main.py` that a reader might not expect, all modelled as written:

* No option is filtered out for falling outside an accepted daily window.
  Every option of every selected class takes part in the enumeration.
* Two options are compared on their hours alone, whatever their weekdays.
  A Monday-only and a Tuesday-only section at the same hour clash
  (`Combinations.DisjointDaysStillClash`).
* A missing exam is not read as "no conflict". When the comparison reaches
  a `None` exam, `do_exams_overlap` raises at main.py:79 (reading `.id` of `None`), and the whole
  enumeration aborts (`Combinations.ScanMissingExam`).

Three quirks of the code are also modelled as written:

* `parse_in_person` returns index 6 when neither "presencial" nor
  "virtual" occurs. As a result, the `assert next >= 0` after it in
  `parse_schedule` can never fail.
* An exam whose start is before its end overlaps itself, so two sections
  that point at the very same exam are reported as a clash. A zero-length
  exam overlaps nothing, not even itself.
* `parse_in_person` searches the whole rest of an option line, the
  option's own exam included. A virtual section whose exam says
  "presencial" is therefore taken as in person, and the seat count is then
  looked for past the end of the line. The `find(' ')` assert at
  main.py:180 fails, so the line is rejected
  (`Catalog.InPersonExamRejectsSection`).

## Model

| member | source | states |
|---|---|---|
| Days.Mask | main.py:111-114 | bit `i` of the mask built with `days \|= 1 << i` is set exactly when flag `i` holds, and the mask stays below `2^n` |
| Days.ParseDays | main.py:101-116 | a day's bit is set iff its name occurs anywhere in the line; the mask is below 32; the second result is the first space's index, or -1 exactly when the line has no space |
| Days.ParseDaysRoundTrip | main.py:101-116 | parsing `str_from_days(d) + " " + rest` gives back `d` and the length of its text, for `d < 32` and a `rest` that names no day |
| Days.ParseDaysOfFormatted | main.py:31-36 | `parse_days(str_from_days(d) + " ") == (d, len(str_from_days(d)))` for `0 <= d < 32` |
| Days.JoinedContains | main.py:36 | a three-letter day name occurs in `'-'.join(names) + " " + rest` iff it is one of the names or occurs in `rest` |
| Hours.DoHoursOverlap | main.py:59-63 | with minute fields in 0..59, the lexicographic test equals `s1 < e2 && s2 < e1` on minutes since midnight |
| Hours.OverlapSymmetric | main.py:59-63 | the overlap test is symmetric for all ranges |
| Hours.BackToBackDoNotOverlap | main.py:59-63 | a range ending where another starts overlaps it in neither order |
| Hours.EmptyRangeAtEndpoint | main.py:59-63 | a zero-length range overlaps no range that starts or ends at its instant |
| Hours.ProperRangeOverlapsItself | main.py:59-63 | a range with start before end overlaps itself |
| Hours.StrFromHours | main.py:45-56 | a range of valid times formats to 11 characters with ':' at index 2, '-' at index 5 and ':' at index 8, the `HH:MM-HH:MM` shape; ParseHoursRoundTrip fixes the digits |
| Hours.NumberBefore | main.py:131-132 | on success the separator is at the returned index and the number is the non-negative `int()` of the text before it |
| Hours.ParseHours | main.py:127-147 | on success the returned count is the index of a space, and every field is non-negative |
| Hours.ParseHoursFirstSpace | main.py:143-147 | the returned count is the index of the FIRST space in the line, the one `find(' ')` stops at after the last field |
| Hours.ParseHoursRoundTrip | main.py:127-147 | `parse_hours(str_from_hours(r) + " " + rest)` returns `r` and the length of `str_from_hours(r)` for hours in 0..23 and minutes in 0..59 |
| Hours.ParseFormattedHours | main.py:45-56 | the same round trip with a lone trailing space |
| Exams.DoExamsOverlap | main.py:78-81 | different ids never conflict; otherwise, with real minute fields, two exams conflict iff their ranges overlap as half-open minute intervals |
| Exams.ExamsOverlapSymmetric | main.py:78-81 | the exam conflict test is symmetric |
| Exams.ExamConflictsWithItself | main.py:78-81 | an exam with start before end conflicts with itself |
| Exams.ParseExam | main.py:150-161 | a parsed exam has a non-negative id |
| Exams.InPersonFound | main.py:159 | after a formatted range, "presencial" is found exactly when the exam is in person |
| Exams.ParseExamRoundTrip | main.py:73-75 | `parse_exam(str_from_exam(e)) == e` for a non-negative id and valid times |
| Catalog.ParseInPerson | main.py:119-124 | the flag is whether "presencial" occurs; the index is just past the FIRST occurrence of the word found (of "presencial" when it occurs, else of "virtual"), and is 6 when neither occurs, so never below 6 |
| Catalog.ParseFields | main.py:165-182 | the fields before the exam parse to a non-negative group and seat count and a mask below 32, followed by a suffix of the line |
| Catalog.ParseModeAndSeats | main.py:177-182 | the mode is whether "presencial" occurs anywhere in the remaining text, the seat count is non-negative, and what follows is a suffix of the text |
| Catalog.InPersonExamRejectsSection | main.py:177-180 | a text whose only "presencial" is the one that closes it, as an in-person exam written after a virtual section's fields does, is rejected, because no space follows that word |
| Catalog.ParseSchedule | main.py:164-191 | an option line without '(' inherits the class's exam; an option whose exam differs from the class's read it after a '(' |
| Catalog.ParseTitleRoundTrip | main.py:194-198 | a name without '(' and without surrounding whitespace, followed by a space and `str_from_exam(e)`, parses to a class with that name, no options and exam `e`, for a non-negative id and a valid range |
| Catalog.StripTrailingSpace | main.py:196 | `strip()` of a name with no surrounding whitespace followed by one space gives back the name |
| Catalog.ParseTitle | main.py:194-198 | a title gives a class with no options, which has an exam iff the line has a '('; without one its name is the line stripped of ':' and ' ' |
| Catalog.AddLine | main.py:205-210 | an empty line fails; an option line before any class fails; an option line leaves every earlier class untouched and appends to the most recent class exactly the option `parse_schedule` reads from the line with that class's exam, keeping the old options as a prefix, and that option inherits the class's exam when the line has no '('; a title line keeps the earlier classes and appends exactly the class `parse_title` reads, which has no options and has an exam iff the line has a '(' |
| Catalog.ParseSemesterLine | main.py:201-212 | on success there is one class per title line and one option per option line |
| Catalog.SemesterLineShape | main.py:204-210 | a catalog that parses has no blank line, and its first line is not an option line |
| Cartesian.ProductSound | main.py:229 | every element of the product takes its i-th entry from the i-th list |
| Cartesian.ProductLength | main.py:229 | the product has as many elements as the product of the list lengths |
| Cartesian.ProductComplete | main.py:229 | every pick of one entry per list is in the product |
| Cartesian.ProductAt | main.py:229 | the element at position `a * n + b` is the first list's `a`-th entry followed by the `b`-th pick of the rest, so the first index changes slowest |
| Cartesian.ProductWithEmptyList | main.py:229 | an empty list anywhere makes the product empty |
| Cartesian.ProductOfNoLists | main.py:229 | the product of no lists is the single empty tuple |
| Combinations.PairVerdict | main.py:236-241 | a pair passes iff hours do not overlap, both exams exist and they do not clash; it aborts exactly when the hours do not overlap and at least one of the two exams is missing |
| Combinations.ScanKeepIff | main.py:234-244 | the pair scan from `(i, j)` on keeps iff every pair it still visits is compatible |
| Combinations.ScanMissingExam | main.py:239 | the scan aborts only at a pair with non-overlapping hours and a missing exam |
| Combinations.KeepIff | main.py:233-247 | a combination is kept iff every pair `i < j` is compatible |
| Combinations.NoAbortWithExams | main.py:239 | when every option has an exam the check never raises |
| Combinations.SingleOptionKept | main.py:234-235 | a combination of at most one option is always kept, with or without an exam |
| Combinations.VerdictIgnoresDays | main.py:236 | the verdict depends only on hours and exams, never on the day bits |
| Combinations.DisjointDaysStillClash | main.py:236 | a Monday-only and a Tuesday-only option at the same hours are rejected |
| Combinations.CheckCombination | main.py:233-244 | the nested loops with their breaks compute the verdict of the pair scan |
| Combinations.Survivors | main.py:232-247 | the result is `None` iff some combination aborts, and otherwise is no longer than the input |
| Combinations.SurvivorsMembers | main.py:232-247 | without an abort, the result holds exactly the input combinations whose check keeps them |
| Combinations.SurvivorsInOrder | main.py:232-247 | the kept combinations sit at strictly increasing input positions, and every kept input position appears |
| Combinations.GenerateValidCombinations | main.py:228-249 | the loop over the product returns the survivors of the product, or `None` when a check raises |
| Combinations.CombinationShape | main.py:229 | every returned combination has one entry per class, in class order, each an option of its class |
| Combinations.KeptIff | main.py:228-249 | a combination is returned iff it picks one option per class and every two of its options are compatible |
| Combinations.NoClashKeepsAll | main.py:228-249 | with no clash at all, the whole product is returned and its size is the product of the option counts |
| Combinations.ClassWithoutOptions | main.py:229 | a class with no options gives an empty result, not an error |
| Combinations.NoClasses | main.py:229 | no classes give exactly one, empty, combination |
| Combinations.ExamsEverywhereNeverAborts | main.py:239 | when every option has an exam the enumeration always returns a list |
| Pager.UpdateIndex | main.py:407-421 | "<<" goes to 0 and ">>" to the last index; "←" and "→" move by one exactly when that stays inside the bounds; other triggers and an empty list leave the index alone; the index stays in bounds |
| Pager.RunStaysInBounds | main.py:410-421 | any sequence of presses keeps the index in `[0, count - 1]` |
| Pager.RightThenLeft | main.py:416-421 | "→" then "←" is the identity away from the last index |
| Pager.LeftThenRight | main.py:416-421 | "←" then "→" is the identity away from the first index |
| Pager.RightPresses | main.py:419-421 | `k` presses of "→" advance `k` places or stop at the last index |
| Pager.LeftPresses | main.py:416-418 | `k` presses of "←" go back `k` places or stop at the first index |

## Left out

- `dataframe_from_valid_combination` and `get_day_layout_div`: they are pandas and Dash rendering, plus the display sort by start time.
- `main`: it covers file reading, the split at the catalog's section headings, the hard-coded class selection, the Dash layout, the callback wiring and `app.run`. Only the index arithmetic of `update_schedule` is modelled. The id of the button that fired the callback is a parameter (`Pager.Trigger`).
- `show_semester_line`: it only prints to the console.
- `Text.ParseInt`: it accepts only non-empty runs of decimal digits. Python's `int()` also accepts surrounding whitespace, a sign and underscores, which the catalog's numeric fields do not use.
- The parsers return `None` for every Python exception. The model does not distinguish which exception (`AssertionError`, `ValueError`, `IndexError`, `AttributeError`) was raised.
- The `case _: assert False` branch of `str_from_day`: it is unreachable, because `str_from_days` only passes single flags. `Days.StrFromDay` is total over the five days.
- `Day.Count` is the constant `Days.DayCount`, not a member of the day type.
- Catalog.ParseSchedule: there is no round-trip property for whole option lines (`parse_schedule` against the line format `show_semester_line` prints). Only the field round trips and the exam inheritance are proved.

=== FILE: cartesian.dfy ===
/** The Cartesian product `itertools.product(*lists)` that
    `generate_valid_combinations` enumerates (main.py:229). */
module Cartesian {

  /** `t` takes its i-th element from `lists[i]`, for every list. */
  predicate IsPick<T(==)>(t: seq<T>, lists: seq<seq<T>>) {
    |t| == |lists| && forall i :: 0 <= i < |t| ==> t[i] in lists[i]
  }

  /** The number of picks: the product of the list lengths. */
  function SizeProduct<T>(lists: seq<seq<T>>): nat {
    if |lists| == 0 then 1 else |lists[0]| * SizeProduct(lists[1..])
  }

  /** `[x] + t` for every `x` in `xs` and `t` in `ts`, the `xs` index changing slowest. */
  function Prefixed<T>(xs: seq<T>, ts: seq<seq<T>>): seq<seq<T>>
    decreases |xs|
  {
    if |xs| == 0 then []
    else seq(|ts|, k requires 0 <= k < |ts| => [xs[0]] + ts[k]) + Prefixed(xs[1..], ts)
  }

  /** A prefixed tuple is an element of `xs` followed by a tuple of `ts`. */
  lemma {:induction false} PrefixedSound<T>(xs: seq<T>, ts: seq<seq<T>>, u: seq<T>)
    requires u in Prefixed(xs, ts)
    ensures |u| > 0 && u[0] in xs && u[1..] in ts
    decreases |xs|
  {
    var head := seq(|ts|, k requires 0 <= k < |ts| => [xs[0]] + ts[k]);
    if u in head {
      var k :| 0 <= k < |ts| && head[k] == u;
      assert u[1..] == ts[k];
    } else {
      assert u in Prefixed(xs[1..], ts);
      PrefixedSound(xs[1..], ts, u);
    }
  }

  lemma {:induction false} PrefixedLength<T>(xs: seq<T>, ts: seq<seq<T>>)
    ensures |Prefixed(xs, ts)| == |xs| * |ts|
    decreases |xs|
  {
    if |xs| > 0 {
      PrefixedLength(xs[1..], ts);
      assert |xs| * |ts| == |ts| + (|xs| - 1) * |ts|;
    }
  }

  /** `itertools.product(*lists)`: one element from each list, the first
      list's index changing slowest and the last list's fastest. */
  function Product<T>(lists: seq<seq<T>>): seq<seq<T>>
    decreases |lists|
  {
    if |lists| == 0 then [[]] else Prefixed(lists[0], Product(lists[1..]))
  }

  /** Every element of the product takes its i-th entry from the i-th list. */
  lemma {:induction false} ProductSound<T>(lists: seq<seq<T>>, t: seq<T>)
    requires t in Product(lists)
    ensures IsPick(t, lists)
    decreases |lists|
  {
    if |lists| > 0 {
      PrefixedSound(lists[0], Product(lists[1..]), t);
      ProductSound(lists[1..], t[1..]);
      assert forall i :: 1 <= i < |t| ==> t[i] == t[1..][i - 1];
    }
  }

  /** The product has one pick per combination of indices. */
  lemma {:induction false} ProductLength<T>(lists: seq<seq<T>>)
    ensures |Product(lists)| == SizeProduct(lists)
    decreases |lists|
  {
    if |lists| > 0 {
      ProductLength(lists[1..]);
      PrefixedLength(lists[0], Product(lists[1..]));
    }
  }

  /** A prefixed tuple is listed. */
  lemma {:induction false} PrefixedComplete<T>(xs: seq<T>, ts: seq<seq<T>>, x: T, t: seq<T>)
    requires x in xs && t in ts
    ensures [x] + t in Prefixed(xs, ts)
    decreases |xs|
  {
    if x == xs[0] {
      var k :| 0 <= k < |ts| && ts[k] == t;
      assert Prefixed(xs, ts)[k] == [x] + t;
    } else {
      PrefixedComplete(xs[1..], ts, x, t);
    }
  }

  /** Every pick is in the product, so the product lists exactly the picks. */
  lemma {:induction false} ProductComplete<T>(lists: seq<seq<T>>, t: seq<T>)
    requires IsPick(t, lists)
    ensures t in Product(lists)
    decreases |lists|
  {
    if |lists| == 0 {
      assert t == [];
    } else {
      assert IsPick(t[1..], lists[1..]) by {
        assert forall i :: 0 <= i < |t| - 1 ==> t[1..][i] == t[i + 1];
      }
      ProductComplete(lists[1..], t[1..]);
      PrefixedComplete(lists[0], Product(lists[1..]), t[0], t[1..]);
      assert [t[0]] + t[1..] == t;
    }
  }

  /** With no lists there is exactly one, empty, pick. */
  lemma ProductOfNoLists<T>(lists: seq<seq<T>>)
    requires |lists| == 0
    ensures Product(lists) == [[]]
  {
  }

  /** One empty list leaves nothing to pick. */
  lemma {:induction false} ProductWithEmptyList<T>(lists: seq<seq<T>>, i: nat)
    requires i < |lists| && |lists[i]| == 0
    ensures Product(lists) == []
    decreases |lists|
  {
    if i > 0 {
      ProductWithEmptyList(lists[1..], i - 1);
      PrefixedLength(lists[0], Product(lists[1..]));
    }
  }

  /** Position `a * |ts| + b` of the prefixed tuples is the `a`-th head before the `b`-th tail. */
  lemma {:induction false} PrefixedAt<T>(xs: seq<T>, ts: seq<seq<T>>, a: nat, b: nat)
    requires a < |xs| && b < |ts|
    ensures a * |ts| + b < |Prefixed(xs, ts)|
    ensures Prefixed(xs, ts)[a * |ts| + b] == [xs[a]] + ts[b]
    decreases a
  {
    var n := |ts|;
    if a > 0 {
      PrefixedAt(xs[1..], ts, a - 1, b);
      assert a * n + b == n + ((a - 1) * n + b);
    }
  }

  /** Product order, in mixed radix: with `rest` the picks of all lists but
      the first, the pick at position `a * |rest| + b` is the first list's
      `a`-th element followed by `rest[b]`; so the first list's index changes
      slowest and the last list's fastest. */
  lemma {:induction false} ProductAt<T>(lists: seq<seq<T>>, rest: seq<seq<T>>, a: nat, b: nat)
    requires |lists| > 0 && rest == Product(lists[1..])
    requires a < |lists[0]| && b < |rest|
    ensures a * |rest| + b < |Product(lists)|
    ensures Product(lists)[a * |rest| + b] == [lists[0][a]] + rest[b]
  {
    PrefixedAt(lists[0], rest, a, b);
  }
}

=== FILE: catalog.dfy ===
/** The catalog: schedule options ("paralelos") and classes, and the
    line-by-line parser that builds them from the semester's text
    (main.py:84-98, 119-124, 164-212). */
module Catalog {
  import opened Wrappers
  import opened Text
  import opened Days
  import opened Hours
  import opened Exams

  /** One section of a class. `days` is a `Day` bit mask; `exam` is `None`
      when neither the option's line nor its class names an exam. */
  datatype Schedule = Schedule(group: int, days: nat, hours: HourRange, inPerson: bool, available: int, exam: Option<Exam>)

  /** A class, its options in catalog order, and the exam its options inherit. */
  datatype Class = Class(name: string, options: seq<Schedule>, exam: Option<Exam>)

  /** The text that opens every option line; `parse_schedule` skips its length blindly. */
  const OptionPrefix: string := "- Paralelo "

  /** `parse_in_person`: "presencial" anywhere wins, else "virtual"; the
      index returned is just past the word found. When neither occurs it is
      `-1 + len("virtual") == 6`, so it is never negative and the caller's
      `assert next >= 0` cannot fire. */
  function ParseInPerson(line: string): (r: (bool, int))
    ensures r.0 <==> Contains(line, "presencial")
    ensures r.1 >= 6
    ensures r.0 ==> OccursAt(line, "presencial", r.1 - 10)
    ensures !r.0 && Contains(line, "virtual") ==> OccursAt(line, "virtual", r.1 - 7)
    ensures r.0 ==> forall k :: 0 <= k < r.1 - 10 ==> !OccursAt(line, "presencial", k)
    ensures !r.0 ==> forall k :: 0 <= k < r.1 - 7 ==> !OccursAt(line, "virtual", k)
    ensures !Contains(line, "presencial") && !Contains(line, "virtual") ==> r.1 == 6
  {
    var p := Find(line, "presencial");
    var v := Find(line, "virtual");
    if p >= 0 then (true, p + 10) else (false, v + 7)
  }

  /** The fields of an option line that come before its optional exam. */
  datatype Fields = Fields(group: int, days: nat, hours: HourRange, inPerson: bool, available: int)

  /** The first part of `parse_schedule`: skips the prefix, then reads the
      group number (the characters before the first space, less the ':'
      before it), the days, the hours, the in-person word and the seat count,
      returning them with the text that follows. */
  function ParseFields(line: string): (r: Option<(Fields, string)>)
    ensures r.Some? ==> IsSuffix(r.value.1, line)
    ensures r.Some? ==> r.value.0.group >= 0 && r.value.0.available >= 0 && r.value.0.days < Pow2(DayCount)
  {
    var l0 := Drop(line, |OptionPrefix|);
    var n1 := Find(l0, " ");
    if n1 < 0 then None else
    var group := ParseInt(PyPrefix(l0, n1 - 1));
    var l1 := Drop(l0, n1 + 1);
    var (days, n2) := ParseDays(l1);
    if group.None? || n2 < 0 then None else
    var l2 := Drop(l1, n2 + 1);
    var hours := ParseHours(l2);
    if hours.None? then None else
    var l3 := Drop(l2, hours.value.1 + 1);
    var seats := ParseModeAndSeats(l3);
    if seats.None? then None else
    var (inPerson, available, l5) := seats.value;
    SuffixTransitive(l1, l0, line);
    SuffixTransitive(l2, l1, line);
    SuffixTransitive(l3, l2, line);
    SuffixTransitive(l5, l3, line);
    Some((Fields(group.value, days, hours.value.0, inPerson, available), l5))
  }

  /** The middle of `parse_schedule`: the in-person word, searched for in
      all of the remaining text, then the seat count that runs from just
      past that word up to the next space. Returns the mode, the count and
      the text after that space. */
  function ParseModeAndSeats(text: string): (r: Option<(bool, int, string)>)
    ensures r.Some? ==> r.value.0 == Contains(text, "presencial")
    ensures r.Some? ==> r.value.1 >= 0 && IsSuffix(r.value.2, text)
  {
    var (inPerson, n) := ParseInPerson(text);
    var rest := Drop(text, n + 1);
    var space := Find(rest, " ");
    if space < 0 then None else
    var available := ParseInt(rest[..space]);
    if available.None? then None else
    var after := Drop(rest, space + 1);
    SuffixTransitive(after, rest, text);
    Some((inPerson, available.value, after))
  }

  /** An exam that reads "presencial" and closes the line turns a section
      without that word of its own into an in-person one, and the seat count
      is then read past the end of the line: `find(' ')` finds no space, so
      the option line is rejected. */
  lemma InPersonExamRejectsSection(head: string)
    requires forall k :: 0 <= k < |head| ==> !OccursAt(head + "presencial)", "presencial", k)
    ensures ParseModeAndSeats(head + "presencial)") == None
  {
    var text := head + "presencial)";
    assert text[|head|..|head| + 10] == "presencial";
    assert OccursAt(text, "presencial", |head|);
    var p := Find(text, "presencial");
    assert p >= 0 && !(p < |head|) && !(p > |head|);
    assert Drop(text, |head| + 11) == [];
  }

  /** The end of `parse_schedule`: an exam read after the first '(' of the
      remaining text, or else the class's exam `maybeExam`. */
  function AttachExam(f: Fields, rest: string, maybeExam: Option<Exam>): (r: Option<Schedule>)
    ensures r.Some? ==> r.value.group == f.group && r.value.days == f.days && r.value.available == f.available
    ensures r.Some? && !Contains(rest, "(") ==> r.value.exam == maybeExam
    ensures r.Some? && r.value.exam != maybeExam ==> r.value.exam.Some? && Contains(rest, "(")
  {
    var n := Find(rest, "(");
    if n >= 0 then
      var exam := ParseExam(Drop(rest, n + 1));
      if exam.None? then None
      else Some(Schedule(f.group, f.days, f.hours, f.inPerson, f.available, Some(exam.value)))
    else Some(Schedule(f.group, f.days, f.hours, f.inPerson, f.available, maybeExam))
  }

  /** `parse_schedule`: the fields, then an exam when a '(' follows them;
      otherwise the option inherits `maybeExam`, its class's exam. */
  function ParseSchedule(line: string, maybeExam: Option<Exam>): (r: Option<Schedule>)
    ensures r.Some? ==> r.value.group >= 0 && r.value.available >= 0 && r.value.days < Pow2(DayCount)
    ensures r.Some? && !Contains(line, "(") ==> r.value.exam == maybeExam
    ensures r.Some? && r.value.exam != maybeExam ==> r.value.exam.Some? && Contains(line, "(")
  {
    match ParseFields(line)
    case None => None
    case Some((f, rest)) =>
      AbsentFromSuffix(rest, line, "(");
      AttachExam(f, rest, maybeExam)
  }

  /** `parse_title`: a title with a '(' carries the class's exam and is named
      by the stripped text before it; otherwise the name is the line with
      ':' and ' ' stripped and the class has no exam. */
  function ParseTitle(line: string): (r: Option<Class>)
    ensures r.Some? ==> r.value.options == []
    ensures r.Some? ==> (r.value.exam.Some? <==> Contains(line, "("))
    ensures !Contains(line, "(") ==> r.Some? && r.value.name == Strip(line, {':', ' '})
  {
    var x := Find(line, "(");
    if x != -1 then
      var exam := ParseExam(line[x..]);
      if exam.None? then None else Some(Class(Strip(line[..x], Whitespace), [], Some(exam.value)))
    else Some(Class(Strip(line, {':', ' '}), [], None))
  }

  /** A title followed by its class's exam, as the catalog writes it, gives
      back the name and the exam; the options then inherit that exam. */
  lemma ParseTitleRoundTrip(name: string, e: Exam)
    requires e.id >= 0 && ValidRange(e.hours)
    requires '(' !in name && Trimmed(name, Whitespace)
    ensures ParseTitle(name + " " + StrFromExam(e)) == Some(Class(name, [], Some(e)))
  {
    var exam := StrFromExam(e);
    assert exam[0] == '(';
    TitleSplit(name, exam);
    ParseExamRoundTrip(e);
    StripTrailingSpace(name);
  }

  /** A name without '(' followed by a space and a text that opens with '(':
      the first '(' is the text's, and the slices around it are the parts. */
  lemma TitleSplit(name: string, text: string)
    requires '(' !in name && |text| > 0 && text[0] == '('
    ensures var line := name + " " + text;
      Find(line, "(") == |name| + 1 && line[|name| + 1..] == text && line[..|name| + 1] == name + " "
  {
    var line := name + " " + text;
    assert line == (name + " ") + ['('] + text[1..];
    FindSeparator(name + " ", '(', text[1..]);
  }

  /** Stripping a trimmed name followed by one space gives the name back. */
  lemma StripTrailingSpace(name: string)
    requires Trimmed(name, Whitespace)
    ensures Strip(name + " ", Whitespace) == name
  {
  }

  /** A stripped catalog line that starts with '-' lists an option. */
  predicate IsOptionLine(line: string) {
    var s := Strip(line, Whitespace);
    |s| > 0 && s[0] == '-'
  }

  /** A line that is empty once stripped; `line[0]` raises on it. */
  predicate IsBlank(line: string) {
    |Strip(line, Whitespace)| == 0
  }

  /** How many of the lines are class titles. */
  function TitleCount(lines: seq<string>): (n: nat)
    ensures n <= |lines|
  {
    if |lines| == 0 then 0
    else TitleCount(lines[..|lines| - 1]) + (if IsOptionLine(lines[|lines| - 1]) then 0 else 1)
  }

  /** How many options the classes hold in all. */
  function OptionCount(classes: seq<Class>): nat {
    if |classes| == 0 then 0 else OptionCount(classes[..|classes| - 1]) + |classes[|classes| - 1].options|
  }

  /** One turn of `parse_semester_line`'s loop, on the already stripped
      line: an option line extends the most recent class, any other line
      starts a new one. `line[0]` on an empty line and `classes[-1]` on an
      empty list raise; so does a line the field parsers reject. */
  function AddLine(classes: seq<Class>, line: string): (r: Option<seq<Class>>)
    ensures |line| == 0 ==> r.None?
    ensures |line| > 0 && line[0] == '-' && |classes| == 0 ==> r.None?
    ensures r.Some? && line[0] == '-' ==>
              |r.value| == |classes| && OptionCount(r.value) == OptionCount(classes) + 1
    ensures r.Some? && line[0] != '-' ==>
              |r.value| == |classes| + 1 && OptionCount(r.value) == OptionCount(classes)
    ensures r.Some? && line[0] == '-' ==>
              var last := classes[|classes| - 1];
              var added := r.value[|classes| - 1];
              && r.value[..|classes| - 1] == classes[..|classes| - 1]
              && added.name == last.name && added.exam == last.exam
              && |added.options| == |last.options| + 1
              && added.options[..|last.options|] == last.options
              && (!Contains(line, "(") ==> added.options[|last.options|].exam == last.exam)
              && ParseSchedule(line, last.exam) == Some(added.options[|last.options|])
    ensures r.Some? && line[0] != '-' ==>
              && r.value[..|classes|] == classes
              && r.value[|classes|].options == []
              && (r.value[|classes|].exam.Some? <==> Contains(line, "("))
              && ParseTitle(line) == Some(r.value[|classes|])
  {
    if |line| == 0 then None
    else if line[0] == '-' then
      if |classes| == 0 then None else
      var last := classes[|classes| - 1];
      var option := ParseSchedule(line, last.exam);
      if option.None? then None
      else
        var r := classes[..|classes| - 1] + [last.(options := last.options + [option.value])];
        assert r[..|r| - 1] == classes[..|classes| - 1];
        assert (last.options + [option.value])[..|last.options|] == last.options;
        Some(r)
    else
      var c := ParseTitle(line);
      if c.None? then None
      else
        var r := classes + [c.value];
        assert r[..|r| - 1] == classes;
        Some(r)
  }

  /** `parse_semester_line`: every non-option line starts a new class and
      every option line is parsed with, and appended to, the most recent
      class. A blank line, an option before any class or a line the field
      parsers reject makes the whole parse fail. */
  function ParseSemesterLine(lines: seq<string>): (r: Option<seq<Class>>)
    ensures r.Some? ==> |r.value| == TitleCount(lines)
    ensures r.Some? ==> OptionCount(r.value) == |lines| - TitleCount(lines)
  {
    if |lines| == 0 then Some([])
    else
      var prev := ParseSemesterLine(lines[..|lines| - 1]);
      if prev.None? then None
      else AddLine(prev.value, Strip(lines[|lines| - 1], Whitespace))
  }

  /** A line that `parse_semester_line`'s loop accepts is not blank, and is
      a title when no class precedes it. */
  lemma AcceptedLine(classes: seq<Class>, line: string)
    requires AddLine(classes, Strip(line, Whitespace)).Some?
    ensures !IsBlank(line)
    ensures |classes| == 0 ==> !IsOptionLine(line)
  {
  }

  /** A catalog that parses has no blank line and opens with a title. */
  lemma {:induction false} SemesterLineShape(lines: seq<string>)
    requires ParseSemesterLine(lines).Some?
    ensures forall k :: 0 <= k < |lines| ==> !IsBlank(lines[k])
    ensures |lines| > 0 ==> !IsOptionLine(lines[0])
    decreases |lines|
  {
    if |lines| > 0 {
      var init := lines[..|lines| - 1];
      var prev := ParseSemesterLine(init);
      SemesterLineShape(init);
      AcceptedLine(prev.value, lines[|lines| - 1]);
      forall k | 0 <= k < |lines| - 1
        ensures !IsBlank(lines[k])
      {
        assert init[k] == lines[k];
      }
      if |lines| > 1 {
        assert init[0] == lines[0];
      }
    }
  }
}

=== FILE: combinations.dfy ===
/** `generate_valid_combinations` (main.py:228-249): every pick of one option
    per class, in product order, kept when no two picked options clash. Two
    options clash when their class hours overlap, whatever their days, or
    when their exams share an id and overlap. Reaching a pair whose hours do
    not overlap but where an option has no exam raises in `do_exams_overlap`,
    which aborts the whole enumeration. */
module Combinations {
  import opened Wrappers
  import opened Hours
  import opened Exams
  import opened Catalog
  import opened Cartesian

  /** One element of a combination: the `(cls.name, schedule)` pair. */
  datatype Choice = Choice(className: string, option: Schedule)

  /** A class's candidate choices, in option order. */
  function Choices(c: Class): (r: seq<Choice>)
    ensures |r| == |c.options|
    ensures forall k :: 0 <= k < |r| ==> r[k] == Choice(c.name, c.options[k])
  {
    seq(|c.options|, k requires 0 <= k < |c.options| => Choice(c.name, c.options[k]))
  }

  /** The lists `itertools.product` is applied to, one per class. */
  function ChoiceLists(classes: seq<Class>): (r: seq<seq<Choice>>)
    ensures |r| == |classes|
    ensures forall i :: 0 <= i < |r| ==> r[i] == Choices(classes[i])
  {
    seq(|classes|, i requires 0 <= i < |classes| => Choices(classes[i]))
  }

  /** How checking a combination ends: kept, rejected by a clash, or aborted
      by the exception a missing exam raises. */
  datatype Verdict = Keep | Reject | MissingExam

  /** Two picked options can coexist: their hours do not overlap, both have
      an exam, and those exams do not clash. */
  predicate Compatible(a: Choice, b: Choice) {
    && !DoHoursOverlap(a.option.hours, b.option.hours)
    && a.option.exam.Some? && b.option.exam.Some?
    && !DoExamsOverlap(a.option.exam.value, b.option.exam.value)
  }

  /** What the inner loop body decides for the pair `(a, b)`: the hours are
      compared first, then the exams. */
  function PairVerdict(a: Choice, b: Choice): (v: Verdict)
    ensures v == Keep <==> Compatible(a, b)
    ensures v == MissingExam <==> !DoHoursOverlap(a.option.hours, b.option.hours) &&
                                  (a.option.exam.None? || b.option.exam.None?)
    ensures v == Reject ==> DoHoursOverlap(a.option.hours, b.option.hours) ||
                            (a.option.exam.Some? && b.option.exam.Some? &&
                             DoExamsOverlap(a.option.exam.value, b.option.exam.value))
  {
    if DoHoursOverlap(a.option.hours, b.option.hours) then Reject
    else if a.option.exam.None? || b.option.exam.None? then MissingExam
    else if DoExamsOverlap(a.option.exam.value, b.option.exam.value) then Reject
    else Keep
  }

  /** Pair `(a, b)` is visited at or after pair `(i, j)` by the nested loops. */
  predicate FromPair(a: int, b: int, i: int, j: int) {
    a > i || (a == i && b >= j)
  }

  /** The first verdict other than `Keep` among the pairs the nested loops
      visit from row `i`, column `j` on. */
  function ScanFrom(t: seq<Choice>, i: nat, j: nat): Verdict
    decreases |t| - i, |t| - j
  {
    if i >= |t| then Keep
    else if j >= |t| then ScanFrom(t, i + 1, i + 2)
    else
      var v := PairVerdict(t[i], t[j]);
      if v != Keep then v else ScanFrom(t, i, j + 1)
  }

  /** The verdict on a whole combination. */
  function CombinationVerdict(t: seq<Choice>): Verdict {
    ScanFrom(t, 0, 1)
  }

  /** The scan keeps exactly when every pair it still has to visit is compatible. */
  lemma {:induction false} ScanKeepIff(t: seq<Choice>, i: nat, j: nat)
    requires i < j
    ensures ScanFrom(t, i, j) == Keep <==>
              forall a, b :: 0 <= a < b < |t| && FromPair(a, b, i, j) ==> Compatible(t[a], t[b])
    decreases |t| - i, |t| - j
  {
    if i >= |t| {
    } else if j >= |t| {
      ScanKeepIff(t, i + 1, i + 2);
    } else if PairVerdict(t[i], t[j]) == Keep {
      ScanKeepIff(t, i, j + 1);
    }
  }

  /** The scan aborts only at a pair whose hours do not overlap but which lacks an exam. */
  lemma {:induction false} ScanMissingExam(t: seq<Choice>, i: nat, j: nat)
    requires i < j && ScanFrom(t, i, j) == MissingExam
    ensures exists a, b :: 0 <= a < b < |t| &&
              !DoHoursOverlap(t[a].option.hours, t[b].option.hours) &&
              (t[a].option.exam.None? || t[b].option.exam.None?)
    decreases |t| - i, |t| - j
  {
    if j >= |t| {
      ScanMissingExam(t, i + 1, i + 2);
    } else if PairVerdict(t[i], t[j]) == Keep {
      ScanMissingExam(t, i, j + 1);
    }
  }

  /** A combination is kept exactly when every two of its options are
      compatible; the weekday bits play no part. */
  lemma KeepIff(t: seq<Choice>)
    ensures CombinationVerdict(t) == Keep <==> forall a, b :: 0 <= a < b < |t| ==> Compatible(t[a], t[b])
  {
    ScanKeepIff(t, 0, 1);
  }

  /** Every option carries an exam. */
  predicate ExamsPresent(t: seq<Choice>) {
    forall a :: 0 <= a < |t| ==> t[a].option.exam.Some?
  }

  /** When every option has an exam, checking never raises. */
  lemma NoAbortWithExams(t: seq<Choice>)
    requires ExamsPresent(t)
    ensures CombinationVerdict(t) != MissingExam
  {
    if CombinationVerdict(t) == MissingExam {
      ScanMissingExam(t, 0, 1);
    }
  }

  /** Combinations with at most one option are always kept, exam or not. */
  lemma SingleOptionKept(t: seq<Choice>)
    requires |t| <= 1
    ensures CombinationVerdict(t) == Keep
  {
    KeepIff(t);
  }

  /** The verdict looks only at hours and exams: changing the days (or
      anything else) of the options leaves it unchanged. */
  lemma {:induction false} VerdictIgnoresDays(t: seq<Choice>, u: seq<Choice>, i: nat, j: nat)
    requires |t| == |u|
    requires forall a :: 0 <= a < |t| ==> t[a].option.hours == u[a].option.hours && t[a].option.exam == u[a].option.exam
    ensures ScanFrom(t, i, j) == ScanFrom(u, i, j)
    decreases |t| - i, |t| - j
  {
    if i >= |t| {
    } else if j >= |t| {
      VerdictIgnoresDays(t, u, i + 1, i + 2);
    } else {
      VerdictIgnoresDays(t, u, i, j + 1);
    }
  }

  /** `generate_valid_combinations`' inner loops over one combination,
      returning `MissingExam` where `do_exams_overlap` would raise. */
  method CheckCombination(combination: seq<Choice>) returns (v: Verdict)
    ensures v == CombinationVerdict(combination)
  {
    var i := 0;
    while i < |combination|
      invariant 0 <= i <= |combination|
      invariant ScanFrom(combination, i, i + 1) == CombinationVerdict(combination)
    {
      var j := i + 1;
      while j < |combination|
        invariant i + 1 <= j <= |combination|
        invariant ScanFrom(combination, i, j) == CombinationVerdict(combination)
      {
        var a, b := combination[i].option, combination[j].option;
        if DoHoursOverlap(a.hours, b.hours) {
          return Reject;
        }
        if a.exam.None? || b.exam.None? {
          return MissingExam;
        }
        if DoExamsOverlap(a.exam.value, b.exam.value) {
          return Reject;
        }
        j := j + 1;
      }
      i := i + 1;
    }
    return Keep;
  }

  /** The outcome of checking the combinations `ts` in order: `None` as soon
      as one aborts, else the kept ones in their original order. */
  function Survivors(ts: seq<seq<Choice>>): (r: Option<seq<seq<Choice>>>)
    ensures r.None? <==> exists k :: 0 <= k < |ts| && CombinationVerdict(ts[k]) == MissingExam
    ensures r.Some? ==> |r.value| <= |ts|
  {
    if |ts| == 0 then Some([])
    else
      var init := ts[..|ts| - 1];
      var t := ts[|ts| - 1];
      assert forall k :: 0 <= k < |ts| - 1 ==> init[k] == ts[k];
      assert ts == init + [t];
      var prev := Survivors(init);
      if prev.None? then None
      else match CombinationVerdict(t)
        case MissingExam => None
        case Reject => prev
        case Keep => Some(prev.value + [t])
  }

  /** One step of the filter: the last combination is appended when kept. */
  lemma SurvivorsStep(ts: seq<seq<Choice>>)
    requires |ts| > 0 && Survivors(ts).Some?
    ensures Survivors(ts[..|ts| - 1]).Some?
    ensures var last := ts[|ts| - 1];
            Survivors(ts).value
            == Survivors(ts[..|ts| - 1]).value + (if CombinationVerdict(last) == Keep then [last] else [])
  {
  }

  /** The survivors are exactly the kept combinations of the input. */
  lemma {:induction false} SurvivorsMembers(ts: seq<seq<Choice>>, t: seq<Choice>)
    requires Survivors(ts).Some?
    ensures t in Survivors(ts).value <==> t in ts && CombinationVerdict(t) == Keep
    decreases |ts|
  {
    if |ts| > 0 {
      var init := ts[..|ts| - 1];
      SurvivorsStep(ts);
      SurvivorsMembers(init, t);
      assert ts == init + [ts[|ts| - 1]];
    }
  }

  /** The survivors are the kept combinations at strictly increasing
      positions of the input: a filter that keeps product order. */
  lemma {:induction false} SurvivorsInOrder(ts: seq<seq<Choice>>) returns (pos: seq<nat>)
    requires Survivors(ts).Some?
    ensures |pos| == |Survivors(ts).value|
    ensures forall k :: 0 <= k < |pos| ==> pos[k] < |ts| && Survivors(ts).value[k] == ts[pos[k]]
    ensures forall k, l :: 0 <= k < l < |pos| ==> pos[k] < pos[l]
    ensures forall m :: 0 <= m < |ts| && CombinationVerdict(ts[m]) == Keep ==> m in pos
    decreases |ts|
  {
    if |ts| == 0 {
      pos := [];
    } else {
      var init := ts[..|ts| - 1];
      SurvivorsStep(ts);
      var prev := SurvivorsInOrder(init);
      var before := Survivors(init).value;
      var after := Survivors(ts).value;
      if CombinationVerdict(ts[|ts| - 1]) == Keep {
        pos := prev + [|ts| - 1];
        forall k | 0 <= k < |pos|
          ensures pos[k] < |ts| && after[k] == ts[pos[k]]
        {
          if k < |prev| {
            assert pos[k] == prev[k] && after[k] == before[k] && init[prev[k]] == ts[prev[k]];
          }
        }
      } else {
        pos := prev;
        forall k | 0 <= k < |pos|
          ensures pos[k] < |ts| && after[k] == ts[pos[k]]
        {
          assert after[k] == before[k] && init[prev[k]] == ts[prev[k]];
        }
      }
      forall m | 0 <= m < |ts| && CombinationVerdict(ts[m]) == Keep
        ensures m in pos
      {
        if m < |ts| - 1 {
          assert init[m] == ts[m];
        }
      }
    }
  }

  /** The combinations of `classes` that `generate_valid_combinations`
      returns, or `None` when it raises. */
  function ValidCombinations(classes: seq<Class>): Option<seq<seq<Choice>>> {
    Survivors(Product(ChoiceLists(classes)))
  }

  /** `generate_valid_combinations`: builds the product, checks each
      combination in order and collects the kept ones; a missing exam
      propagates out as `None`. */
  method GenerateValidCombinations(classes: seq<Class>) returns (r: Option<seq<seq<Choice>>>)
    ensures r == ValidCombinations(classes)
  {
    var all := Product(ChoiceLists(classes));
    var valid := [];
    var k := 0;
    while k < |all|
      invariant 0 <= k <= |all|
      invariant Survivors(all[..k]) == Some(valid)
    {
      var v := CheckCombination(all[k]);
      assert all[..k + 1][..k] == all[..k];
      if v == MissingExam {
        assert CombinationVerdict(all[k]) == MissingExam;
        return None;
      }
      if v == Keep {
        valid := valid + [all[k]];
      }
      k := k + 1;
    }
    assert all[..k] == all;
    return Some(valid);
  }

  /** `t` picks, for each class in order, one of that class's options. */
  predicate IsCombination(classes: seq<Class>, t: seq<Choice>) {
    |t| == |classes| &&
    forall i :: 0 <= i < |t| ==> t[i].className == classes[i].name && t[i].option in classes[i].options
  }

  /** The number of combinations: the product of the classes' option counts. */
  function OptionsProduct(classes: seq<Class>): nat {
    if |classes| == 0 then 1 else |classes[0].options| * OptionsProduct(classes[1..])
  }

  lemma CombinationIsPick(classes: seq<Class>, t: seq<Choice>)
    ensures IsCombination(classes, t) <==> IsPick(t, ChoiceLists(classes))
  {
    var lists := ChoiceLists(classes);
    if IsCombination(classes, t) {
      forall i | 0 <= i < |t|
        ensures t[i] in lists[i]
      {
        var k :| 0 <= k < |classes[i].options| && classes[i].options[k] == t[i].option;
        assert lists[i][k] == t[i];
      }
    }
  }

  /** Whatever `generate_valid_combinations` returns picks one option per
      class, in class order. */
  lemma CombinationShape(classes: seq<Class>, t: seq<Choice>)
    requires ValidCombinations(classes).Some? && t in ValidCombinations(classes).value
    ensures IsCombination(classes, t)
  {
    SurvivorsMembers(Product(ChoiceLists(classes)), t);
    ProductSound(ChoiceLists(classes), t);
    CombinationIsPick(classes, t);
  }

  /** A combination is returned exactly when it picks one option per class
      and every two of its options are compatible. */
  lemma KeptIff(classes: seq<Class>, t: seq<Choice>)
    requires ValidCombinations(classes).Some?
    ensures t in ValidCombinations(classes).value <==>
              IsCombination(classes, t) && forall a, b :: 0 <= a < b < |t| ==> Compatible(t[a], t[b])
  {
    SurvivorsMembers(Product(ChoiceLists(classes)), t);
    if t in Product(ChoiceLists(classes)) {
      ProductSound(ChoiceLists(classes), t);
    }
    CombinationIsPick(classes, t);
    KeepIff(t);
    if IsCombination(classes, t) {
      ProductComplete(ChoiceLists(classes), t);
    }
  }

  /** A list in which every combination is kept survives whole. */
  lemma {:induction false} SurvivorsAllKept(ts: seq<seq<Choice>>)
    requires forall k :: 0 <= k < |ts| ==> CombinationVerdict(ts[k]) == Keep
    ensures Survivors(ts) == Some(ts)
    decreases |ts|
  {
    if |ts| > 0 {
      var init := ts[..|ts| - 1];
      assert forall k :: 0 <= k < |init| ==> init[k] == ts[k];
      SurvivorsAllKept(init);
      assert init + [ts[|ts| - 1]] == ts;
    }
  }

  lemma {:induction false} SizeOfChoiceLists(classes: seq<Class>)
    ensures SizeProduct(ChoiceLists(classes)) == OptionsProduct(classes)
    decreases |classes|
  {
    if |classes| > 0 {
      assert ChoiceLists(classes)[1..] == ChoiceLists(classes[1..]);
      SizeOfChoiceLists(classes[1..]);
    }
  }

  /** With no clash anywhere, every combination is returned, in product
      order, and there are as many as the product of the option counts. */
  lemma NoClashKeepsAll(classes: seq<Class>)
    requires forall t :: IsCombination(classes, t) ==> forall a, b :: 0 <= a < b < |t| ==> Compatible(t[a], t[b])
    ensures ValidCombinations(classes) == Some(Product(ChoiceLists(classes)))
    ensures |ValidCombinations(classes).value| == OptionsProduct(classes)
  {
    var all := Product(ChoiceLists(classes));
    forall k | 0 <= k < |all|
      ensures CombinationVerdict(all[k]) == Keep
    {
      ProductSound(ChoiceLists(classes), all[k]);
      CombinationIsPick(classes, all[k]);
      KeepIff(all[k]);
    }
    SurvivorsAllKept(all);
    ProductLength(ChoiceLists(classes));
    SizeOfChoiceLists(classes);
  }

  /** A class with no options leaves no combination, and that is not an error. */
  lemma ClassWithoutOptions(classes: seq<Class>, i: nat)
    requires i < |classes| && |classes[i].options| == 0
    ensures ValidCombinations(classes) == Some([])
  {
    ProductWithEmptyList(ChoiceLists(classes), i);
  }

  /** With no classes there is exactly one, empty, combination. */
  lemma NoClasses(classes: seq<Class>)
    requires |classes| == 0
    ensures ValidCombinations(classes) == Some([[]])
  {
    ProductOfNoLists(ChoiceLists(classes));
    SingleOptionKept([]);
    SurvivorsAllKept([[]]);
  }

  /** When every option of every class has an exam, the enumeration never raises. */
  lemma ExamsEverywhereNeverAborts(classes: seq<Class>)
    requires forall i, k :: 0 <= i < |classes| && 0 <= k < |classes[i].options| ==> classes[i].options[k].exam.Some?
    ensures ValidCombinations(classes).Some?
  {
    var all := Product(ChoiceLists(classes));
    forall m | 0 <= m < |all|
      ensures CombinationVerdict(all[m]) != MissingExam
    {
      var t := all[m];
      ProductSound(ChoiceLists(classes), t);
      CombinationIsPick(classes, t);
      forall a | 0 <= a < |t|
        ensures t[a].option.exam.Some?
      {
        var k :| 0 <= k < |classes[a].options| && classes[a].options[k] == t[a].option;
      }
      NoAbortWithExams(t);
    }
  }

  /** Days are never consulted: a Monday-only and a Tuesday-only option at
      the same hour still clash. */
  lemma DisjointDaysStillClash(e1: Exam, e2: Exam)
    ensures
      var hours := HourRange(Hour(9, 0), Hour(10, 0));
      var monday := Choice("A", Schedule(1, 1, hours, true, 30, Some(e1)));
      var tuesday := Choice("B", Schedule(1, 2, hours, true, 30, Some(e2)));
      CombinationVerdict([monday, tuesday]) == Reject
  {
  }
}

=== FILE: days.dfy ===
/** The `Day` bit flags, their three-letter Spanish names, and the two
    functions that turn a day mask into text and back (main.py:12-36, 101-116). */
module Days {
  import opened Text

  datatype Day = Monday | Tuesday | Wednesday | Thursday | Friday

  /** `Day.Count`: the number of flag bits in use. */
  const DayCount: nat := 5

  /** The bit position of a day: `Day.X == 1 << Index(X)`. */
  function Index(d: Day): (i: nat)
    ensures i < DayCount
  {
    match d
    case Monday => 0
    case Tuesday => 1
    case Wednesday => 2
    case Thursday => 3
    case Friday => 4
  }

  function DayAt(i: nat): (d: Day)
    requires i < DayCount
    ensures Index(d) == i
  {
    if i == 0 then Monday
    else if i == 1 then Tuesday
    else if i == 2 then Wednesday
    else if i == 3 then Thursday
    else Friday
  }

  function Pow2(n: nat): (p: nat)
    ensures p >= 1
  {
    if n == 0 then 1 else 2 * Pow2(n - 1)
  }

  /** The flag value of a day, `1 << Index(d)`. */
  function Flag(d: Day): nat {
    Pow2(Index(d))
  }

  /** `days & (1 << i) != 0` for a non-negative mask. */
  predicate HasBit(days: nat, i: nat) {
    if i == 0 then days % 2 == 1 else HasBit(days / 2, i - 1)
  }

  /** `str_from_day`: the abbreviation a catalog line uses for each day. */
  function StrFromDay(d: Day): (s: string)
    ensures |s| == 3 && '-' !in s && ' ' !in s
  {
    match d
    case Monday => "lun"
    case Tuesday => "mar"
    case Wednesday => "mie"
    case Thursday => "jue"
    case Friday => "vie"
  }

  /** Distinct days have distinct names, so a name identifies its bit. */
  lemma NamesDistinct(i: nat, j: nat)
    requires i < DayCount && j < DayCount && i != j
    ensures StrFromDay(DayAt(i)) != StrFromDay(DayAt(j))
  {
  }

  /** The mask with bit `i` set exactly when `flags[i]` holds; `parse_days`
      builds it with `days |= 1 << i`. */
  function Mask(flags: seq<bool>): (m: nat)
    ensures m < Pow2(|flags|)
    ensures forall i :: 0 <= i < |flags| ==> (HasBit(m, i) <==> flags[i])
  {
    if |flags| == 0 then 0
    else
      var m := (if flags[0] then 1 else 0) + 2 * Mask(flags[1..]);
      assert forall i :: 1 <= i < |flags| ==> flags[i] == flags[1..][i - 1];
      m
  }

  /** Two masks below `2^n` that agree on the low `n` bits are equal. */
  lemma {:induction false} BitsDetermineMask(a: nat, b: nat, n: nat)
    requires a < Pow2(n) && b < Pow2(n)
    requires forall i :: 0 <= i < n ==> (HasBit(a, i) <==> HasBit(b, i))
    ensures a == b
  {
    if n > 0 {
      assert HasBit(a, 0) <==> HasBit(b, 0);
      forall i | 0 <= i < n - 1
        ensures HasBit(a / 2, i) <==> HasBit(b / 2, i)
      {
        assert HasBit(a, i + 1) <==> HasBit(b, i + 1);
      }
      BitsDetermineMask(a / 2, b / 2, n - 1);
    }
  }

  /** The names of the days set in `days`, from bit `i` upwards: the
      `builder` list of `str_from_days`. */
  function NamesFrom(days: nat, i: nat): (names: seq<string>)
    requires i <= DayCount
    ensures forall x :: x in names <==> exists j :: i <= j < DayCount && HasBit(days, j) && x == StrFromDay(DayAt(j))
    decreases DayCount - i
  {
    if i == DayCount then []
    else (if HasBit(days, i) then [StrFromDay(DayAt(i))] else []) + NamesFrom(days, i + 1)
  }

  /** `'-'.join(parts)`. */
  function Join(parts: seq<string>): string {
    if |parts| == 0 then ""
    else if |parts| == 1 then parts[0]
    else parts[0] + "-" + Join(parts[1..])
  }

  /** `str_from_days`: the names of the set days, in week order, joined by '-'. */
  function StrFromDays(days: nat): string {
    Join(NamesFrom(days, 0))
  }

  /** `parse_days`: a day's bit is set when its name occurs ANYWHERE in the
      line, and the second result is the index of the line's first space. */
  function ParseDays(line: string): (r: (nat, int))
    ensures r.0 < Pow2(DayCount)
    ensures forall i :: 0 <= i < DayCount ==> (HasBit(r.0, i) <==> Contains(line, StrFromDay(DayAt(i))))
    ensures -1 <= r.1
    ensures r.1 == -1 <==> ' ' !in line
    ensures r.1 >= 0 ==> r.1 < |line| && line[r.1] == ' ' && ' ' !in line[..r.1]
  {
    var has := seq(DayCount, i requires 0 <= i < DayCount => Contains(line, StrFromDay(DayAt(i))));
    var space := Find(line, " ");
    SpaceIndex(line, space);
    (Mask(has), space)
  }

  lemma SpaceIndex(line: string, space: int)
    requires space == Find(line, " ")
    ensures space == -1 <==> ' ' !in line
    ensures space >= 0 ==> space < |line| && line[space] == ' ' && ' ' !in line[..space]
  {
    if space >= 0 {
      assert line[space..space + 1] == " ";
      assert line[space] in line;
      forall k | 0 <= k < space
        ensures line[k] != ' '
      {
        assert !OccursAt(line, " ", k);
        assert line[k..k + 1] == [line[k]];
      }
    } else {
      forall k | 0 <= k < |line|
        ensures line[k] != ' '
      {
        assert !OccursAt(line, " ", k);
        assert line[k..k + 1] == [line[k]];
      }
    }
  }

  /** Parts that are three characters long with no '-' or ' ' in them, as day names are. */
  predicate NameLike(p: string) {
    |p| == 3 && '-' !in p && ' ' !in p
  }

  /** No character outside the names and the separator appears in a join. */
  lemma JoinAvoids(parts: seq<string>, c: char)
    requires c != '-' && forall q :: q in parts ==> c !in q
    ensures c !in Join(parts)
  {
    if |parts| > 1 {
      JoinAvoids(parts[1..], c);
    }
  }

  /** Where a name-like pattern can sit in `a + [sep] + tail` when `a` is name-like and `sep` is not in the pattern. */
  lemma OccursAfterHead(a: string, sep: char, tail: string, p: string, k: int)
    requires NameLike(a) && NameLike(p) && sep in {'-', ' '}
    requires OccursAt(a + [sep] + tail, p, k)
    ensures (k == 0 && p == a) || OccursAt(tail, p, k - 4)
  {
    var s := a + [sep] + tail;
    if k >= 4 {
      assert s[k..k + 3] == tail[k - 4..k - 1];
    } else if k > 0 {
      WindowHitsSeparator(a, sep, tail, p, k);
      assert false;
    }
  }

  /** A three-character window starting inside a three-character head covers the separator after it. */
  lemma WindowHitsSeparator(a: string, sep: char, tail: string, p: string, k: int)
    requires |a| == 3 && |p| == 3 && 0 < k < 4
    requires OccursAt(a + [sep] + tail, p, k)
    ensures sep in p
  {
    var s := a + [sep] + tail;
    assert s[k..k + 3][3 - k] == s[3];
  }

  /** A day-like name occurs after a leading space exactly when it occurs in the rest. */
  lemma SpaceThenRest(rest: string, p: string)
    requires NameLike(p)
    ensures Contains([' '] + rest, p) <==> Contains(rest, p)
  {
    var s := [' '] + rest;
    if Contains(rest, p) {
      var k :| OccursAt(rest, p, k);
      assert s[1..] == rest;
      OccursInSuffix(s, p, 1, k);
    }
    if Contains(s, p) {
      var k :| OccursAt(s, p, k);
      assert s[k..k + 3][0] == s[k];
      assert k > 0;
      assert s[k..k + 3] == rest[k - 1..k + 2];
      assert OccursAt(rest, p, k - 1);
    }
  }

  /** A day-like name occurs in `a + [sep] + tail`, for a name-like `a`,
      exactly when it is `a` or occurs in `tail`. */
  lemma HeadThenTail(a: string, sep: char, tail: string, p: string)
    requires NameLike(a) && NameLike(p) && sep in {'-', ' '}
    ensures Contains(a + [sep] + tail, p) <==> p == a || Contains(tail, p)
  {
    var s := a + [sep] + tail;
    if Contains(s, p) {
      var k :| OccursAt(s, p, k);
      OccursAfterHead(a, sep, tail, p, k);
    }
    if p == a {
      assert s[0..3] == a;
      assert OccursAt(s, p, 0);
    } else if Contains(tail, p) {
      var k :| OccursAt(tail, p, k);
      assert s[4..] == tail;
      OccursInSuffix(s, p, 4, k);
    }
  }

  /** A day-like name occurs in `'-'.join(parts) + " " + rest` exactly when it is one of the parts or occurs in `rest`. */
  lemma {:induction false} JoinedContains(parts: seq<string>, rest: string, p: string)
    requires NameLike(p) && forall q :: q in parts ==> NameLike(q)
    ensures Contains(Join(parts) + " " + rest, p) <==> p in parts || Contains(rest, p)
  {
    var s := Join(parts) + " " + rest;
    if |parts| == 0 {
      assert s == [' '] + rest;
      SpaceThenRest(rest, p);
    } else {
      var a := parts[0];
      var sep := if |parts| == 1 then ' ' else '-';
      var tail := if |parts| == 1 then rest else Join(parts[1..]) + " " + rest;
      assert s == a + [sep] + tail;
      HeadThenTail(a, sep, tail, p);
      if |parts| > 1 {
        JoinedContains(parts[1..], rest, p);
        assert forall q :: q in parts[1..] ==> q in parts;
        assert p in parts <==> p == a || p in parts[1..];
      }
    }
  }

  /** `parse_days(str_from_days(d) + " " + rest)` recovers `d` and the length
      of its text, provided `rest` names no day. */
  lemma ParseDaysRoundTrip(days: nat, rest: string)
    requires days < Pow2(DayCount)
    requires forall i :: 0 <= i < DayCount ==> !Contains(rest, StrFromDay(DayAt(i)))
    ensures ParseDays(StrFromDays(days) + " " + rest) == (days, |StrFromDays(days)|)
  {
    var names := NamesFrom(days, 0);
    var text := StrFromDays(days);
    var line := text + " " + rest;
    var r := ParseDays(line);
    forall i | 0 <= i < DayCount
      ensures HasBit(r.0, i) <==> HasBit(days, i)
    {
      JoinedContains(names, rest, StrFromDay(DayAt(i)));
      if StrFromDay(DayAt(i)) in names {
        var j :| 0 <= j < DayCount && HasBit(days, j) && StrFromDay(DayAt(i)) == StrFromDay(DayAt(j));
        if i != j {
          NamesDistinct(i, j);
        }
      }
    }
    BitsDetermineMask(r.0, days, DayCount);
    JoinAvoids(names, ' ');
    FindSeparator(text, ' ', rest);
  }

  /** The round trip with only a space after the formatted mask. */
  lemma ParseDaysOfFormatted(days: nat)
    requires days < Pow2(DayCount)
    ensures ParseDays(StrFromDays(days) + " ") == (days, |StrFromDays(days)|)
  {
    forall i | 0 <= i < DayCount
      ensures !Contains("", StrFromDay(DayAt(i)))
    {
      assert forall k :: !OccursAt("", StrFromDay(DayAt(i)), k);
    }
    ParseDaysRoundTrip(days, "");
    assert StrFromDays(days) + " " + "" == StrFromDays(days) + " ";
  }
}

=== FILE: exams.dfy ===
/** Exams: their record, the same-exam conflict test, and the
    `(exámen: ID HH:MM-HH:MM presencial|virtual)` text form with its parser
    (main.py:66-81, 150-161). */
module Exams {
  import opened Wrappers
  import opened Text
  import opened Hours

  /** Two classes may share an `id`, meaning they sit one and the same exam. */
  datatype Exam = Exam(id: int, hours: HourRange, inPerson: bool)

  /** Whether the exam is held in person, as the text form spells it. */
  function InPersonWord(inPerson: bool): string {
    if inPerson then "presencial" else "virtual"
  }

  /** `str_from_exam`. */
  function StrFromExam(e: Exam): string {
    "(exámen: " + ShowInt(e.id) + " " + StrFromHours(e.hours) + " " + InPersonWord(e.inPerson) + ")"
  }

  /** `do_exams_overlap`: exams with different ids never conflict, whatever
      their times; exams with the same id conflict when their ranges overlap,
      so a same-id, same-time pair is a conflict. */
  function DoExamsOverlap(e1: Exam, e2: Exam): (b: bool)
    ensures e1.id != e2.id ==> !b
    ensures MinutesInRange(e1.hours.start) && MinutesInRange(e1.hours.end) &&
            MinutesInRange(e2.hours.start) && MinutesInRange(e2.hours.end) ==>
              (b <==> e1.id == e2.id &&
                      Minutes(e1.hours.start) < Minutes(e2.hours.end) &&
                      Minutes(e2.hours.start) < Minutes(e1.hours.end))
  {
    if e1.id != e2.id then false else DoHoursOverlap(e1.hours, e2.hours)
  }

  /** The exam conflict test is symmetric. */
  lemma ExamsOverlapSymmetric(e1: Exam, e2: Exam)
    ensures DoExamsOverlap(e1, e2) == DoExamsOverlap(e2, e1)
  {
    OverlapSymmetric(e1.hours, e2.hours);
  }

  /** An exam that spans time conflicts with itself: two options that point at
      the very same exam are reported as clashing. */
  lemma ExamConflictsWithItself(e: Exam)
    requires MinutesInRange(e.hours.start) && MinutesInRange(e.hours.end)
    requires Minutes(e.hours.start) < Minutes(e.hours.end)
    ensures DoExamsOverlap(e, e)
  {
  }

  /** `parse_exam`: skips to the first space, reads the id up to the next
      space, then the range; the exam is in person when "presencial" occurs
      anywhere after the id. */
  function ParseExam(line: string): (r: Option<Exam>)
    ensures r.Some? ==> r.value.id >= 0
  {
    var n1 := Find(line, " ");
    if n1 < 0 then None else
    var l1 := line[n1 + 1..];
    var n2 := Find(l1, " ");
    if n2 < 0 then None else
    var id := ParseInt(l1[..n2]);
    var l2 := l1[n2 + 1..];
    var hours := ParseHours(l2);
    if id.None? || hours.None? then None
    else Some(Exam(id.value, hours.value.0, Contains(l2, "presencial")))
  }

  /** The in-person word is found after a formatted range exactly when it was written. */
  lemma InPersonFound(r: HourRange, inPerson: bool)
    requires ValidRange(r)
    ensures Contains(StrFromHours(r) + " " + (InPersonWord(inPerson) + ")"), "presencial") == inPerson
  {
    var s := StrFromHours(r) + " " + (InPersonWord(inPerson) + ")");
    if inPerson {
      assert s[12..22] == "presencial";
      assert OccursAt(s, "presencial", 12);
    } else {
      FormattedHoursChars(r);
      VirtualTailHasNoWord(StrFromHours(r));
    }
  }

  /** A text of digits and separators followed by " virtual)" holds no "presencial". */
  lemma VirtualTailHasNoWord(h: string)
    requires forall i :: 0 <= i < |h| ==> IsDigit(h[i]) || h[i] in {':', '-'}
    ensures !Contains(h + " " + ("virtual" + ")"), "presencial")
  {
    var s := h + " " + ("virtual" + ")");
    assert forall i :: 0 <= i < |s| ==> s[i] != 'p';
    assert 'p' in "presencial";
    AbsentByChar(s, "presencial", 'p');
  }

  /** The opening word of an exam's text, up to the space before its id. */
  const ExamWord: string := "(exámen:"

  lemma ExamWordHasNoSpace()
    ensures ' ' !in ExamWord
  {
    assert forall i :: 0 <= i < |ExamWord| ==> ExamWord[i] != ' ';
  }

  /** `parse_exam` on a first word, a decimal id and the text of the range. */
  lemma ParseExamFields(word: string, id: nat, l2: string)
    requires ' ' !in word
    ensures ParseExam(word + " " + ShowNat(id) + " " + l2)
         == if ParseHours(l2).None? then None else Some(Exam(id, ParseHours(l2).value.0, Contains(l2, "presencial")))
  {
    var idText := ShowNat(id);
    var l1 := idText + " " + l2;
    var line := word + " " + idText + " " + l2;
    assert line == word + [' '] + l1;
    FindSeparator(word, ' ', l1);
    assert line[|word| + 1..] == l1;
    assert ' ' !in idText by {
      assert forall i :: 0 <= i < |idText| ==> idText[i] != ' ';
    }
    FindSeparator(idText, ' ', l2);
    assert l1[..|idText|] == idText;
    assert l1[|idText| + 1..] == l2;
  }

  /** `parse_exam(str_from_exam(e)) == e` for a non-negative id and a valid range. */
  lemma ParseExamRoundTrip(e: Exam)
    requires e.id >= 0 && ValidRange(e.hours)
    ensures ParseExam(StrFromExam(e)) == Some(e)
  {
    ExamText(e);
    ParseExamText(e.id, e.hours, e.inPerson);
  }

  /** `parse_exam` reads back the id, range and in-person word it is given. */
  lemma ParseExamText(id: nat, r: HourRange, inPerson: bool)
    requires ValidRange(r)
    ensures ParseExam(ExamWord + " " + ShowNat(id) + " " + (StrFromHours(r) + " " + (InPersonWord(inPerson) + ")")))
         == Some(Exam(id, r, inPerson))
  {
    var l2 := StrFromHours(r) + " " + (InPersonWord(inPerson) + ")");
    ExamWordHasNoSpace();
    ParseHoursRoundTrip(r, InPersonWord(inPerson) + ")");
    InPersonFound(r, inPerson);
    ParseExamFields(ExamWord, id, l2);
  }

  /** The text of an exam with a non-negative id, split at the id. */
  lemma ExamText(e: Exam)
    requires e.id >= 0
    ensures StrFromExam(e) == ExamWord + " " + ShowNat(e.id) + " " + (StrFromHours(e.hours) + " " + (InPersonWord(e.inPerson) + ")"))
  {
    assert "(exámen: " == ExamWord + " ";
    Regroup(ExamWord + " ", ShowNat(e.id), StrFromHours(e.hours), InPersonWord(e.inPerson));
  }

  lemma Regroup(a: string, b: string, c: string, d: string)
    ensures a + b + " " + c + " " + d + ")" == a + b + " " + (c + " " + (d + ")"))
  {
  }
}

=== FILE: hours.dfy ===
/** Times of day, time ranges, their overlap test, and the `HH:MM-HH:MM`
    text form with its parser (main.py:39-63, 127-147). */
module Hours {
  import opened Wrappers
  import opened Text

  datatype Hour = Hour(hours: int, minutes: int)

  datatype HourRange = HourRange(start: Hour, end: Hour)

  /** Minutes since midnight of the clock reading `hours:minutes`. */
  function ClockMinutes(hours: int, minutes: int): int {
    hours * 60 + minutes
  }

  /** Minutes since midnight. */
  function Minutes(h: Hour): int {
    ClockMinutes(h.hours, h.minutes)
  }

  /** The minute field is a real minute; the overlap test is exact under this alone. */
  predicate MinutesInRange(h: Hour) {
    0 <= h.minutes <= 59
  }

  /** A time of day a catalog can hold: 00:00 to 23:59. */
  predicate ValidHour(h: Hour) {
    0 <= h.hours <= 23 && MinutesInRange(h)
  }

  predicate ValidRange(r: HourRange) {
    ValidHour(r.start) && ValidHour(r.end)
  }

  /** `str_from_hour`: `f"{hours:02d}:{minutes:02d}"`. */
  function StrFromHour(h: Hour): string {
    Format02(h.hours) + ":" + Format02(h.minutes)
  }

  /** `str_from_hours`: the start and end joined by '-'. */
  function StrFromHours(r: HourRange): (s: string)
    ensures ValidRange(r) ==> |s| == 11 && s[2] == ':' && s[5] == '-' && s[8] == ':'
  {
    StrFromHour(r.start) + "-" + StrFromHour(r.end)
  }

  /** `do_hours_overlap`: the ranges overlap unless one ends at or before the
      other starts, comparing (hours, minutes) lexicographically. With real
      minute fields this is the half-open interval test on minutes since
      midnight, so back-to-back ranges do not overlap. */
  function DoHoursOverlap(r1: HourRange, r2: HourRange): (b: bool)
    ensures MinutesInRange(r1.start) && MinutesInRange(r1.end) && MinutesInRange(r2.start) && MinutesInRange(r2.end) ==>
              (b <==> Minutes(r1.start) < Minutes(r2.end) && Minutes(r2.start) < Minutes(r1.end))
  {
    !((r1.end.hours < r2.start.hours) ||
      (r1.end.hours == r2.start.hours && r1.end.minutes <= r2.start.minutes) ||
      (r1.start.hours > r2.end.hours) ||
      (r1.start.hours == r2.end.hours && r1.start.minutes >= r2.end.minutes))
  }

  /** The overlap test is symmetric for every pair of ranges, well-formed or not. */
  lemma OverlapSymmetric(r1: HourRange, r2: HourRange)
    ensures DoHoursOverlap(r1, r2) == DoHoursOverlap(r2, r1)
  {
  }

  /** A range ending exactly where another starts does not overlap it. */
  lemma BackToBackDoNotOverlap(r1: HourRange, r2: HourRange)
    requires r1.end == r2.start
    ensures !DoHoursOverlap(r1, r2) && !DoHoursOverlap(r2, r1)
  {
  }

  /** A zero-length range overlaps nothing that starts or ends at its instant. */
  lemma EmptyRangeAtEndpoint(h: Hour, r: HourRange)
    requires r.start == h || r.end == h
    ensures !DoHoursOverlap(HourRange(h, h), r)
  {
  }

  /** A range that really spans time overlaps itself. */
  lemma ProperRangeOverlapsItself(r: HourRange)
    requires MinutesInRange(r.start) && MinutesInRange(r.end)
    requires Minutes(r.start) < Minutes(r.end)
    ensures DoHoursOverlap(r, r)
  {
  }

  /** One step of `parse_hours`: `next = line.find(sep)`, the source's
      `assert next >= 0`, then `int(line[:next])`. Returns the number and the
      index of the separator; a missing separator or a non-number is `None`. */
  function NumberBefore(line: string, sep: char): (r: Option<(int, nat)>)
    ensures r.Some? ==> r.value.1 < |line| && line[r.value.1] == sep
    ensures r.Some? ==> r.value.0 >= 0 && ParseInt(line[..r.value.1]) == Some(r.value.0)
  {
    var n := Find(line, [sep]);
    if n < 0 then None
    else
      var v := ParseInt(line[..n]);
      if v.None? then None
      else
        assert line[n..n + 1][0] == line[n];
        Some((v.value, n))
  }

  /** `parse_hours`: reads `H:M-H:M ` and returns the range together with the
      index of the space that ends it. A missing separator fails the source's
      `assert`, a non-number fails `int()`; both are `None`. */
  function ParseHours(line: string): (res: Option<(HourRange, int)>)
    ensures res.Some? ==> 0 <= res.value.1 < |line| && line[res.value.1] == ' '
    ensures res.Some? ==>
              res.value.0.start.hours >= 0 && res.value.0.start.minutes >= 0 &&
              res.value.0.end.hours >= 0 && res.value.0.end.minutes >= 0
  {
    var f1 := NumberBefore(line, ':');
    if f1.None? then None else
    var l1 := line[f1.value.1 + 1..];
    var f2 := NumberBefore(l1, '-');
    if f2.None? then None else
    var l2 := l1[f2.value.1 + 1..];
    var f3 := NumberBefore(l2, ':');
    if f3.None? then None else
    var l3 := l2[f3.value.1 + 1..];
    var f4 := NumberBefore(l3, ' ');
    if f4.None? then None else
    var count := f1.value.1 + f2.value.1 + f3.value.1 + 3;
    assert l3 == line[count..];
    Some((HourRange(Hour(f1.value.0, f2.value.0), Hour(f3.value.0, f4.value.0)), count + f4.value.1))
  }

  /** The count `parse_hours` returns is the index of the first space after
      the range's last field: no space comes before it. */
  lemma ParseHoursFirstSpace(line: string)
    requires ParseHours(line).Some?
    ensures ' ' !in line[..ParseHours(line).value.1]
  {
  }

  /** A two-digit field followed by a separator the digits cannot contain. */
  lemma TwoDigitField(n: int, c: char, rest: string)
    requires 0 <= n < 100 && !IsDigit(c)
    ensures NumberBefore(Format02(n) + [c] + rest, c) == Some((n, 2))
    ensures (Format02(n) + [c] + rest)[3..] == rest
  {
    var f := Format02(n);
    assert forall i :: 0 <= i < |f| ==> f[i] != c;
    FindSeparator(f, c, rest);
    assert (f + [c] + rest)[..2] == f;
  }

  /** `parse_hours` on four two-digit fields with the expected separators. */
  lemma ParseHoursOfFields(a: int, b: int, c: int, d: int, rest: string)
    requires 0 <= a < 100 && 0 <= b < 100 && 0 <= c < 100 && 0 <= d < 100
    ensures ParseHours(Format02(a) + ":" + Format02(b) + "-" + Format02(c) + ":" + Format02(d) + " " + rest)
         == Some((HourRange(Hour(a, b), Hour(c, d)), 11))
  {
    var l3 := Format02(d) + " " + rest;
    var l2 := Format02(c) + ":" + l3;
    var l1 := Format02(b) + "-" + l2;
    var line := Format02(a) + ":" + l1;
    assert line == Format02(a) + ":" + Format02(b) + "-" + Format02(c) + ":" + Format02(d) + " " + rest;
    TwoDigitField(a, ':', l1);
    TwoDigitField(b, '-', l2);
    TwoDigitField(c, ':', l3);
    TwoDigitField(d, ' ', rest);
  }

  /** `parse_hours(str_from_hours(r) + " " + rest)` recovers `r` and the index
      of the space, which is the length of the formatted range. */
  lemma ParseHoursRoundTrip(r: HourRange, rest: string)
    requires ValidRange(r)
    ensures ParseHours(StrFromHours(r) + " " + rest) == Some((r, |StrFromHours(r)|))
  {
    var a, b := Format02(r.start.hours), Format02(r.start.minutes);
    var c, d := Format02(r.end.hours), Format02(r.end.minutes);
    var x, y := StrFromHour(r.start), StrFromHour(r.end);
    assert x == a + ":" + b;
    assert y == c + ":" + d;
    assert y + " " + rest == c + ":" + d + " " + rest;
    assert StrFromHours(r) + " " + rest == x + "-" + (y + " " + rest);
    assert x + "-" + (y + " " + rest) == a + ":" + b + "-" + c + ":" + d + " " + rest;
    ParseHoursOfFields(r.start.hours, r.start.minutes, r.end.hours, r.end.minutes, rest);
  }

  /** A formatted range holds only digits and the two separators. */
  lemma FormattedHoursChars(r: HourRange)
    requires ValidRange(r)
    ensures forall i :: 0 <= i < |StrFromHours(r)| ==> IsDigit(StrFromHours(r)[i]) || StrFromHours(r)[i] in {':', '-'}
  {
    var a, b := Format02(r.start.hours), Format02(r.start.minutes);
    var c, d := Format02(r.end.hours), Format02(r.end.minutes);
    assert StrFromHours(r) == a + ":" + b + "-" + c + ":" + d;
  }

  /** The round trip with only a space after the formatted range. */
  lemma ParseFormattedHours(r: HourRange)
    requires ValidRange(r)
    ensures ParseHours(StrFromHours(r) + " ") == Some((r, |StrFromHours(r)|))
  {
    ParseHoursRoundTrip(r, "");
    assert StrFromHours(r) + " " + "" == StrFromHours(r) + " ";
  }
}

=== FILE: pager.dfy ===
/** The index arithmetic of the viewer's `update_schedule` callback
    (main.py:406-421): four buttons move a cursor over the valid
    combinations, saturating at both ends. */
module Pager {

  /** Which button fired the callback: "<<", "←", "→", ">>", or anything
      else, which matches no case and leaves the index alone. */
  datatype Trigger = LeftMax | Left | Right | RightMax | Other

  /** The new index after `trigger`, with `count` valid combinations. With
      none, the callback returns the index untouched. */
  function UpdateIndex(count: nat, idx: int, trigger: Trigger): (r: int)
    ensures count == 0 || trigger == Other ==> r == idx
    ensures count > 0 && 0 <= idx < count ==> 0 <= r < count
    ensures count > 0 && trigger == LeftMax ==> r == 0
    ensures count > 0 && trigger == RightMax ==> r == count - 1
    ensures count > 0 && trigger == Left ==> (r == idx - 1 <==> idx > 0) && (r == idx <==> idx <= 0)
    ensures count > 0 && trigger == Right ==> (r == idx + 1 <==> idx < count - 1) && (r == idx <==> idx >= count - 1)
  {
    if count == 0 then idx
    else
      var lastValid := count - 1;
      match trigger
      case LeftMax => 0
      case RightMax => lastValid
      case Left => if idx > 0 then idx - 1 else idx
      case Right => if idx < lastValid then idx + 1 else idx
      case Other => idx
  }

  /** The index after a sequence of button presses. */
  function Run(count: nat, idx: int, triggers: seq<Trigger>): int
    decreases |triggers|
  {
    if |triggers| == 0 then idx else Run(count, UpdateIndex(count, idx, triggers[0]), triggers[1..])
  }

  /** Starting inside `[0, count - 1]`, no sequence of presses leaves it. */
  lemma {:induction false} RunStaysInBounds(count: nat, idx: int, triggers: seq<Trigger>)
    requires 0 <= idx < count
    ensures 0 <= Run(count, idx, triggers) < count
    decreases |triggers|
  {
    if |triggers| > 0 {
      RunStaysInBounds(count, UpdateIndex(count, idx, triggers[0]), triggers[1..]);
    }
  }

  /** "→" then "←" returns to where it started, unless "→" was at the end. */
  lemma RightThenLeft(count: nat, idx: int)
    requires 0 <= idx < count - 1
    ensures UpdateIndex(count, UpdateIndex(count, idx, Right), Left) == idx
  {
  }

  /** "←" then "→" returns to where it started, unless "←" was at the start. */
  lemma LeftThenRight(count: nat, idx: int)
    requires 0 < idx < count
    ensures UpdateIndex(count, UpdateIndex(count, idx, Left), Right) == idx
  {
  }

  /** Pressing "→" `k` times from the first combination reaches the `k`-th,
      or stops at the last. */
  lemma {:induction false} RightPresses(count: nat, idx: int, k: nat)
    requires 0 <= idx < count
    ensures Run(count, idx, seq(k, _ => Right)) == if idx + k < count then idx + k else count - 1
    decreases k
  {
    if k > 0 {
      assert seq(k, _ => Right)[1..] == seq(k - 1, _ => Right);
      RightPresses(count, UpdateIndex(count, idx, Right), k - 1);
    }
  }

  /** Pressing "←" `k` times walks back `k` places, or stops at the first. */
  lemma {:induction false} LeftPresses(count: nat, idx: int, k: nat)
    requires 0 <= idx < count
    ensures Run(count, idx, seq(k, _ => Left)) == if idx - k >= 0 then idx - k else 0
    decreases k
  {
    if k > 0 {
      assert seq(k, _ => Left)[1..] == seq(k - 1, _ => Left);
      LeftPresses(count, UpdateIndex(count, idx, Left), k - 1);
    }
  }
}

=== FILE: text.dfy ===
/** The string primitives the catalog parser is written with, with Python's
    semantics: `str.find`, slicing with clamped or negative bounds,
    `str.strip`, decimal `int()` and the `str()` / `:02d` formatting of
    integers. */
module Text {
  import opened Wrappers

  /** `p` occurs in `s` starting at index `k`. */
  predicate OccursAt(s: string, p: string, k: int) {
    0 <= k && k + |p| <= |s| && s[k..k + |p|] == p
  }

  /** `s.find(p, i)`: the first index at or after `i` where `p` occurs, or -1. */
  function FindFrom(s: string, p: string, i: nat): (r: int)
    requires i <= |s|
    ensures r == -1 || (i <= r && OccursAt(s, p, r))
    ensures forall k :: i <= k && (r == -1 || k < r) ==> !OccursAt(s, p, k)
    decreases |s| - i
  {
    if |s| < i + |p| then -1
    else if s[i..i + |p|] == p then i
    else FindFrom(s, p, i + 1)
  }

  /** `s.find(p)`: the first occurrence of `p` in `s`, or -1 when there is none. */
  function Find(s: string, p: string): (r: int)
    ensures -1 <= r
    ensures r == -1 <==> forall k :: !OccursAt(s, p, k)
    ensures 0 <= r ==> OccursAt(s, p, r) && forall k :: 0 <= k < r ==> !OccursAt(s, p, k)
  {
    FindFrom(s, p, 0)
  }

  /** `p in s`, written in the source as `s.find(p) >= 0`. */
  function Contains(s: string, p: string): (b: bool)
    ensures b <==> exists k :: OccursAt(s, p, k)
  {
    Find(s, p) >= 0
  }

  /** The first occurrence of a single character `c` is just past a prefix `a` that lacks it. */
  lemma FindSeparator(a: string, c: char, b: string)
    requires c !in a
    ensures Find(a + [c] + b, [c]) == |a|
  {
    var s := a + [c] + b;
    assert s[|a|..|a| + 1] == [c];
    assert OccursAt(s, [c], |a|);
    forall k | 0 <= k < |a|
      ensures !OccursAt(s, [c], k)
    {
      assert s[k..k + 1] == [a[k]];
    }
  }

  /** A pattern holding a character the text lacks never occurs in it. */
  lemma AbsentByChar(s: string, p: string, c: char)
    requires c in p && c !in s
    ensures Find(s, p) == -1
  {
    var i :| 0 <= i < |p| && p[i] == c;
    forall k
      ensures !OccursAt(s, p, k)
    {
      if 0 <= k && k + |p| <= |s| {
        assert s[k..k + |p|][i] == s[k + i];
      }
    }
  }

  /** An occurrence in a suffix of `s` is an occurrence in `s`, shifted. */
  lemma OccursInSuffix(s: string, p: string, n: nat, k: int)
    requires n <= |s| && OccursAt(s[n..], p, k)
    ensures OccursAt(s, p, n + k)
  {
    assert s[n..][k..k + |p|] == s[n + k..n + k + |p|];
  }

  /** `r` is what is left of `s` after some prefix is cut off. */
  predicate IsSuffix(r: string, s: string) {
    |r| <= |s| && r == s[|s| - |r|..]
  }

  lemma SuffixTransitive(a: string, b: string, c: string)
    requires IsSuffix(a, b) && IsSuffix(b, c)
    ensures IsSuffix(a, c)
  {
    assert c[|c| - |b|..][|b| - |a|..] == c[|c| - |a|..];
  }

  /** A suffix of a text that lacks `p` lacks it too. */
  lemma AbsentFromSuffix(r: string, s: string, p: string)
    requires IsSuffix(r, s)
    ensures !Contains(s, p) ==> !Contains(r, p)
  {
    if !Contains(s, p) {
      AbsentFromSlice(s, p, |s| - |r|, |s|);
      assert s[|s| - |r|..|s|] == r;
    }
  }

  /** A slice of a text that lacks `p` lacks it too. */
  lemma AbsentFromSlice(s: string, p: string, i: nat, j: nat)
    requires !Contains(s, p) && i <= j <= |s|
    ensures !Contains(s[i..j], p)
  {
    forall k
      ensures !OccursAt(s[i..j], p, k)
    {
      if 0 <= k && k + |p| <= j - i {
        var a, b := s[i..j][k..k + |p|], s[i + k..i + k + |p|];
        assert forall m :: 0 <= m < |p| ==> a[m] == b[m];
        assert a == b;
        assert !OccursAt(s, p, i + k);
      }
    }
  }

  /** `s[k:]` for a non-negative `k`: Python clamps an index past the end. */
  function Drop(s: string, k: nat): (r: string)
    ensures |r| == if k <= |s| then |s| - k else 0
    ensures IsSuffix(r, s)
  {
    if k <= |s| then s[k..] else []
  }

  /** `s[:k]`: a negative `k` counts from the end, and both ends are clamped. */
  function PyPrefix(s: string, k: int): (r: string)
    ensures 0 <= k <= |s| ==> |r| == k
    ensures k < 0 ==> |r| == if -k <= |s| then |s| + k else 0
    ensures |r| <= |s| && r == s[..|r|]
  {
    if 0 <= k then s[..if k <= |s| then k else |s|]
    else if -k <= |s| then s[..|s| + k]
    else []
  }

  /** The characters Python's `str.isspace()` accepts, which `str.strip()` removes. */
  const Whitespace: set<char> :=
    {' ', '\t', '\n', '\r', '\U{000B}', '\U{000C}', '\U{001C}', '\U{001D}', '\U{001E}',
     '\U{001F}', '\U{0085}', '\U{00A0}', '\U{1680}', '\U{2000}', '\U{2001}', '\U{2002}',
     '\U{2003}', '\U{2004}', '\U{2005}', '\U{2006}', '\U{2007}', '\U{2008}', '\U{2009}',
     '\U{200A}', '\U{2028}', '\U{2029}', '\U{202F}', '\U{205F}', '\U{3000}'}

  /** How many characters at the start of `s` are in `cs`. */
  function LeadingRun(s: string, cs: set<char>): (n: nat)
    ensures n <= |s|
    ensures forall k :: 0 <= k < n ==> s[k] in cs
    ensures n == |s| || s[n] !in cs
  {
    if |s| > 0 && s[0] in cs then
      var m := LeadingRun(s[1..], cs);
      assert forall k :: 1 <= k < m + 1 ==> s[k] == s[1..][k - 1];
      m + 1
    else 0
  }

  /** How many characters at the end of `s[lo..]` are in `cs`. */
  function TrailingRun(s: string, lo: nat, cs: set<char>): (n: nat)
    requires lo <= |s|
    ensures n <= |s| - lo
    ensures forall k :: |s| - n <= k < |s| ==> s[k] in cs
    ensures n == |s| - lo || s[|s| - n - 1] !in cs
    decreases |s|
  {
    if lo < |s| && s[|s| - 1] in cs then
      var m := TrailingRun(s[..|s| - 1], lo, cs);
      assert forall k :: |s| - m - 1 <= k < |s| - 1 ==> s[k] == s[..|s| - 1][k];
      m + 1
    else 0
  }

  /** `r` is `s` with a run of `cs` characters removed before index `i` and after `r`. */
  predicate StrippedAt(s: string, cs: set<char>, r: string, i: int) {
    && 0 <= i && i + |r| <= |s| && r == s[i..i + |r|]
    && (forall k :: 0 <= k < i ==> s[k] in cs)
    && (forall k :: i + |r| <= k < |s| ==> s[k] in cs)
  }

  /** Neither end of `r` is a `cs` character. */
  predicate Trimmed(r: string, cs: set<char>) {
    |r| == 0 || (r[0] !in cs && r[|r| - 1] !in cs)
  }

  /** Cutting `i` leading and `n` trailing `cs` characters, where the
      characters just inside the cuts are not in `cs`, strips `s`. */
  lemma StripFacts(s: string, cs: set<char>, i: nat, n: nat)
    requires i + n <= |s|
    requires forall k :: 0 <= k < i ==> s[k] in cs
    requires i == |s| || s[i] !in cs
    requires forall k :: |s| - n <= k < |s| ==> s[k] in cs
    requires n == |s| - i || s[|s| - n - 1] !in cs
    ensures StrippedAt(s, cs, s[i..|s| - n], i)
    ensures Trimmed(s[i..|s| - n], cs)
  {
  }

  /** `s.strip(cs)`: the middle of `s` left after removing `cs` characters
      from the start and then from the end. */
  function Strip(s: string, cs: set<char>): (r: string)
    ensures StrippedAt(s, cs, r, LeadingRun(s, cs))
    ensures Trimmed(r, cs)
  {
    var i := LeadingRun(s, cs);
    var n := TrailingRun(s, i, cs);
    StripFacts(s, cs, i, n);
    s[i..|s| - n]
  }

  predicate IsDigit(c: char) {
    '0' <= c <= '9'
  }

  predicate AllDigits(s: string) {
    forall i :: 0 <= i < |s| ==> IsDigit(s[i])
  }

  function DigitValue(c: char): nat
    requires IsDigit(c)
  {
    c as int - '0' as int
  }

  function DigitChar(d: nat): (c: char)
    requires d < 10
    ensures IsDigit(c) && DigitValue(c) == d
  {
    ('0' as int + d) as char
  }

  /** The value of a string of decimal digits, most significant first. */
  function DigitsValue(s: string): nat
    requires AllDigits(s)
  {
    if |s| == 0 then 0 else DigitsValue(s[..|s| - 1]) * 10 + DigitValue(s[|s| - 1])
  }

  /** `int(s)` on the strings the catalog holds: a non-empty run of decimal
      digits; anything else raises `ValueError`, here `None`. */
  function ParseInt(s: string): (r: Option<int>)
    ensures r.Some? <==> |s| > 0 && AllDigits(s)
    ensures r.Some? ==> r.value >= 0
  {
    if |s| > 0 && AllDigits(s) then Some(DigitsValue(s)) else None
  }

  /** `str(n)` for a natural number: its decimal digits without leading zeros. */
  function ShowNat(n: nat): (r: string)
    ensures |r| > 0 && AllDigits(r)
    ensures |r| > 1 ==> r[0] != '0'
    ensures n < 10 ==> |r| == 1
    ensures n < 100 ==> |r| <= 2
    ensures ParseInt(r) == Some(n)
  {
    if n < 10 then
      var r := [DigitChar(n)];
      assert r[..0] == [];
      assert DigitsValue(r) == n;
      r
    else
      var r := ShowNat(n / 10) + [DigitChar(n % 10)];
      assert r[..|r| - 1] == ShowNat(n / 10);
      r
  }

  /** `str(n)` for any integer. */
  function ShowInt(n: int): (r: string)
    ensures n >= 0 ==> ParseInt(r) == Some(n)
    ensures n < 0 ==> |r| > 1 && r[0] == '-' && ParseInt(r[1..]) == Some(-n)
  {
    if n >= 0 then ShowNat(n)
    else
      var r := "-" + ShowNat(-n);
      assert r[1..] == ShowNat(-n);
      r
  }

  /** `f"{n:02d}"`: at least two characters, zero-padded after any sign. */
  function Format02(n: int): (r: string)
    ensures |r| >= 2
    ensures 0 <= n ==> AllDigits(r) && ParseInt(r) == Some(n)
    ensures 0 <= n < 100 ==> |r| == 2
    ensures n < 0 ==> r[0] == '-' && ParseInt(r[1..]) == Some(-n)
  {
    if n < 0 then ShowInt(n)
    else if n < 10 then
      var r := "0" + ShowNat(n);
      assert r[..1] == "0" && r[..1][..0] == [];
      assert DigitsValue(r[..1]) == 0;
      assert DigitsValue(r) == n;
      r
    else ShowNat(n)
  }
}

=== FILE: wrappers.dfy ===
/** The optional-value type used for Python's `None` and for every parse that
    can raise (a failed `assert`, a `ValueError` from `int()`, an
    `IndexError`, an `AttributeError` on a missing exam). */
module Wrappers {

  datatype Option<+T> = None | Some(value: T)

}
